=== FILE: README.md ===
# QgsApplication configuration state and byte swap, in Dafny

This project models the algorithmic core of `QgsApplication` (QGIS 2.10,
`src/core/qgsapplication.h`). That header is the application object's view of
process-wide settings. The model covers:

- **`endian_swap`**: the in-place reversal of the bytes of a fixed-size value.
  It is modelled twice. `Endian.EndianSwapInPlace` works on an `array<bv8>`, as
  the template does. `Endian.EndianSwap` runs the same loop on the value's bytes
  as a sequence. Both are proved equal to an independent reference reversal.
  The two byte orders of `endian_t` (XDR = 0, big-endian; NDR = 1,
  little-endian) are modelled so that one lemma can state what the swap is
  for: bytes read in one order read as the same number in the other order once
  swapped.
- **Theme resolution**: the theme directory `pkgDataPath + "/themes/" + name + "/"`,
  `setThemeName` with its fallback to `"default"`, `activeThemePath`,
  `defaultThemePath`, and the two-level `iconPath` lookup.
- **The GDAL driver skip list**: `skipGdalDriver`, `restoreGdalDriver` and
  `skippedGdalDrivers` over a list of driver names. The setters never add a
  name twice, so a list that starts without duplicates keeps none.
- **The thread setting**: `setMaxThreads` and `maxThreads`. The setting is
  always -1 ("use all available cores") or between 1 and the core count.
- **The state as a whole**: the static fields become an immutable record
  `Application.Config`, and each setter becomes a pure transition.
  `Application.Valid` is the invariant every setter keeps.
  `Application.ReachableStatesValid` proves that the invariant holds after any
  sequence of setter calls from a start whose start-up skip list has no
  duplicate. The theme and thread parts hold from every start.

Filesystem existence is a parameter: `Host.existing` is the set of paths that
exist, and it is fixed while the state evolves. The core count the host
reports is the parameter `Host.cores`.

Modules: `Endian` (endian.dfy), `Theme` (theme.dfy), `GdalSkipList`
(gdal_skip_list.dfy), `ThreadCount` (thread_count.dfy) and `Application`
(application.dfy), which imports the previous three.

Only the header is part of this model; `qgsapplication.cpp` is not. Where the
header's comments state a behaviour, the model follows them. Four choices fill
gaps the header leaves open:

- **Theme directory.** Line 62 says the theme search path is *usually*
  `pkgDataPath + "/themes/" + name + "/"`. Lines 63-64 allow plugin writers to
  look the theme name up in their own datastores. The bodies of
  `activeThemePath` and `defaultThemePath` are in qgsapplication.cpp. The model
  takes the line-62 formula as exact, both for `setThemeName`'s existence test
  and for `activeThemePath`, `defaultThemePath` and `iconPath`.

- **Theme fallback.** A requested theme whose directory is missing makes the
  active theme `"default"`, as the comment at lines 65-67 says. This holds even
  when a different valid theme was active before: the previous theme is not
  kept.
- **Out-of-range thread counts.** Lines 286-287 give only the domain of
  `maxThreads` (-1, or 1 to the core count). The model stores -1 for every
  request outside that domain, so the request falls back to "use all
  available cores". A request inside the domain is stored unchanged.
- **Starting values.** The header does not show the fields' initial values.
  `Application.Initial` starts with the default theme and a thread setting
  of -1. The skip list is a parameter: lines 271-273 say it is based on the
  `GDAL_SKIP` environment variable, so it may be filled at start-up. Such a
  list may hold a name twice. For that reason the no-duplicate part of
  `Application.ReachableStatesValid` holds only when the start-up list has
  no duplicate. The theme and thread parts hold unconditionally.

`restoreGdalDriver` removes every occurrence of the driver, because line 265
says the driver is excluded. Setter calls never add a name twice.

## Model

| member | source | states |
|---|---|---|
| `Endian.Code` | src/core/qgsapplication.h:199-205 | definition of the `endian_t` values: XDR is 0, NDR is 1 |
| `Endian.EndianSwapInPlace` | src/core/qgsapplication.h:210-220 | after the in-place swap, the array holds the reversal of its former bytes |
| `Endian.EndianSwap` | src/core/qgsapplication.h:211-220 | the swap loop, run for `i < n/2`, yields the reversal of the value's bytes |
| `Endian.SwapEdgeCases` | src/core/qgsapplication.h:215-218 | a value of at most one byte is left unchanged, and the middle byte of an odd-sized value stays in place |
| `Endian.Reverse` | src/core/qgsapplication.h:214-219 | reference reversal: same length, and element `i` is element `n-1-i` of the input, for every `i` |
| `Endian.SwapTwiceIsIdentity` | src/core/qgsapplication.h:210-220 | swapping twice gives back the original value |
| `Endian.SwapFixesOnlyPalindromes` | src/core/qgsapplication.h:214-219 | a swap leaves the value unchanged exactly when its bytes read the same in both directions |
| `Endian.SwapConvertsByteOrder` | src/core/qgsapplication.h:199-220 | bytes that read as number v in XDR (big-endian) order read as v in NDR (little-endian) order once swapped, and the other way round |
| `Theme.ThemePath` | src/core/qgsapplication.h:60-62 | the theme directory is the package data path, then "/themes/", then the name, then a final "/"; the name can be read back from between them |
| `Theme.ThemePathInjective` | src/core/qgsapplication.h:60-62 | under one package data path, two theme names give the same directory path string only when they are the same name |
| `Theme.ThemeFileInjective` | src/core/qgsapplication.h:60-62 | two theme names give the same directory path string (or the same file path under it) only when they are the same name |
| `Theme.SelectTheme` | src/core/qgsapplication.h:60-69 | the theme left active is the requested one exactly when its directory exists (or it is the default), otherwise `"default"`; the result always resolves |
| `Theme.SelectThemeIdempotent` | src/core/qgsapplication.h:60-69 | requesting again the theme a request ended on changes nothing |
| `Theme.IconPath` | src/core/qgsapplication.h:154-156 | the result is the file under the active or the default theme, the active one when it exists; whenever either theme has the file, the result exists |
| `Theme.IconPathActiveIff` | src/core/qgsapplication.h:154-156 | the lookup answers with the active theme's file if and only if that file exists or the default theme is active |
| `GdalSkipList.Skip` | src/core/qgsapplication.h:259-263 | the driver is listed afterwards; other names keep their membership and their order; a driver already listed leaves the list unchanged, so the list grows by at most one; a duplicate-free list stays duplicate-free |
| `GdalSkipList.Restore` | src/core/qgsapplication.h:265-269 | the driver is not listed afterwards; other names keep their membership; an unlisted driver leaves the list unchanged; a duplicate-free list stays duplicate-free |
| `GdalSkipList.SkipIdempotent` | src/core/qgsapplication.h:259-263 | skipping a driver twice equals skipping it once |
| `GdalSkipList.RestoreIdempotent` | src/core/qgsapplication.h:265-269 | restoring a driver twice equals restoring it once |
| `GdalSkipList.RestoreUndoesSkip` | src/core/qgsapplication.h:259-269 | restoring a driver just skipped from a list that lacked it gives back that list |
| `GdalSkipList.GtiffScenario` | src/core/qgsapplication.h:259-274 | skipping "GTIFF" twice lists it once; restoring it twice leaves an empty list |
| `ThreadCount.Normalize` | src/core/qgsapplication.h:285-288 | the stored value is -1 or between 1 and the core count; it equals the request exactly when the request is in that domain, and is -1 otherwise |
| `ThreadCount.NormalizeIdempotent` | src/core/qgsapplication.h:285-288 | setting the stored value again stores the same value |
| `ThreadCount.Effective` | src/core/qgsapplication.h:282-287 | a setting of -1 stands for every core; any in-domain setting stands for between 1 and the core count |
| `Application.Initial` | src/core/qgsapplication.h:302-332 | the starting state has a theme that resolves on every filesystem and a thread setting in the domain for every core count; its skip list is the one read at start-up |
| `Application.InitialValid` | src/core/qgsapplication.h:271-274 | the starting state is valid exactly when the start-up skip list has no duplicate |
| `Application.ThemeName` | src/core/qgsapplication.h:71-77 | definition of `themeName()`: reads the active theme's name |
| `Application.SkippedGdalDrivers` | src/core/qgsapplication.h:271-274 | definition of `skippedGdalDrivers()`: reads the skip list |
| `Application.MaxThreads` | src/core/qgsapplication.h:282-284 | definition of `maxThreads()`: reads the stored setting |
| `Application.ThreadsInUse` | src/core/qgsapplication.h:285-287 | a setting of -1 stands for every core; on a host with at least one core, any in-domain setting stands for between 1 and the core count |
| `Application.ActiveThemePath` | src/core/qgsapplication.h:148-149 | the active theme's directory equals the default theme's directory exactly when the default theme is active |
| `Application.DefaultThemePath` | src/core/qgsapplication.h:151-152 | the default theme's directory is the theme directory of `"default"` and of no other name |
| `Application.ActiveThemeDirectoryExists` | src/core/qgsapplication.h:60-69 | in a valid state, the active theme's directory exists unless it is the default one |
| `Application.IconPath` | src/core/qgsapplication.h:154-156 | the active theme's file when it exists, otherwise the default theme's file, with no further fallback |
| `Application.SetThemeName` | src/core/qgsapplication.h:60-77 | `themeName()` equals the request exactly when its directory exists or it is `"default"`, and is `"default"` otherwise; the new name always resolves; no other field changes; validity is kept |
| `Application.SkipGdalDriver` | src/core/qgsapplication.h:259-274 | `skippedGdalDrivers()` contains the driver; no other driver's membership and no other field changes; a duplicate-free list stays duplicate-free; validity is kept |
| `Application.RestoreGdalDriver` | src/core/qgsapplication.h:265-274 | `skippedGdalDrivers()` lacks the driver; no other driver's membership and no other field changes; a duplicate-free list stays duplicate-free; validity is kept |
| `Application.SetMaxThreads` | src/core/qgsapplication.h:282-288 | `maxThreads()` is -1 or between 1 and the core count, equals the request exactly when the request is in that domain, and no other field changes |
| `Application.RunPreservesValid` | src/core/qgsapplication.h:302-332 | any sequence of setter calls keeps a valid state valid, and keeps each part of validity on its own: a resolving theme, a duplicate-free skip list, an in-domain thread setting |
| `Application.ReachableStatesValid` | src/core/qgsapplication.h:282-288 | after any calls from the starting state, `maxThreads()` is -1 or between 1 and the core count, and the theme directory exists unless the theme is the default; the skip list has no duplicate if the start-up list had none |
| `Application.MissingClassicThemeScenario` | src/core/qgsapplication.h:60-69 | with package data path "/opt/app/share" and no "classic" theme directory, requesting "classic" leaves "default" active, at "/opt/app/share/themes/default/" |

## Left out

- GUI and event handling: `event`, `notify`, `setFileOpenEventReceiver`, `preNotify`, `getThemeIcon` and `getThemePixmap` belong to the Qt event loop and to image loading.
- Provider lifecycle and databases: `initQgis`, `exitQgis`, `createDB` and `registerOgrDrivers` call into provider registries, SQLite and OGR.
- The start-up read of `GDAL_SKIP` into the skip list: how the variable is read and split is defined only in qgsapplication.cpp. The model takes the resulting list as a parameter of `Application.Initial`.
- `applyGdalSkippedDrivers` and the `GDAL_SKIP` environment write: these are a process-environment write and a call into GDAL. Only the list state is modelled.
- `absolutePathToRelativePath` and `relativePathToAbsolutePath`: their algorithm is in qgsapplication.cpp, which is not part of this model.
- The fixed file-path getters (`authorsFilePath` to `svgPaths`, `userStyleV2Path`, `defaultStyleV2Path`, `libraryPath`, `libexecPath`, `prefixPath`, `pluginPath`), `init`, and the setters `setPrefixPath`, `setPluginPath`, `setPkgDataPath` and `setDefaultSvgPaths`: their offsets and the build-directory detection are defined only in qgsapplication.cpp. `pkgDataPath` is a field of the model that none of the modelled calls changes.
- `isRunningFromBuildDir`, `buildSourcePath` and `buildOutputPath`: these are plain reads of fields that only the unmodelled `init` sets.
- `endian()` queries the host's byte order, and `systemEnvVars` returns a snapshot of the environment. Neither has logic to verify.
- `reportStyleSheet` and `showSettings` only produce text.
- Concurrency: the header's state is static and unsynchronised. The model treats calls as happening one at a time.
- The filesystem does not change while the state evolves. If a theme directory were deleted after `setThemeName`, `Application.Valid` would no longer describe the real state.

=== FILE: application.dfy ===
/**
 * The process-wide configuration state of the application object, as an
 * immutable record, with the setters as pure transitions and the getters as
 * functions of the record.
 *
 * The host is a parameter: the set of filesystem paths that exist (fixed
 * while the state evolves) and the number of cores the host reports.
 */
module Application {
  import Theme
  import GdalSkipList
  import ThreadCount

  /** The fields the modelled operations read and write. */
  datatype Config = Config(
    pkgDataPath: string,
    themeName: string,
    gdalSkipList: seq<string>,
    maxThreads: int)

  /** What the state asks of its host: existing paths and the core count. */
  datatype Host = Host(existing: set<string>, cores: int)

  /**
   * What every setter keeps: the theme name resolves to an existing
   * directory (or is the default), the skip list has no duplicates and the
   * thread setting is -1 or between 1 and the core count.  A state reached
   * from a start whose start-up skip list has no duplicate is valid.
   */
  predicate Valid(c: Config, h: Host)
  {
    && Theme.Resolves(c.pkgDataPath, h.existing, c.themeName)
    && GdalSkipList.Distinct(c.gdalSkipList)
    && ThreadCount.InDomain(c.maxThreads, h.cores)
  }

  /**
   * Starting state for a package data path and the skip list read at start-up
   * (from GDAL_SKIP): the default theme is active and all cores are used.  The
   * theme and the thread setting are valid on every host; the skip list is
   * taken as given.
   */
  function Initial(pkgDataPath: string, startSkipList: seq<string>): (c: Config)
    ensures forall existing :: Theme.Resolves(pkgDataPath, existing, ThemeName(c))
    ensures forall cores :: ThreadCount.InDomain(MaxThreads(c), cores)
    ensures SkippedGdalDrivers(c) == startSkipList
  {
    Config(pkgDataPath, Theme.DefaultTheme, startSkipList, ThreadCount.AllCores)
  }

  lemma InitialValid(pkgDataPath: string, startSkipList: seq<string>, h: Host)
    ensures Valid(Initial(pkgDataPath, startSkipList), h) <==> GdalSkipList.Distinct(startSkipList)
  {
  }

  // Getters

  /** `themeName()`: the name of the active theme. */
  function ThemeName(c: Config): string { c.themeName }

  /** `skippedGdalDrivers()`: the drivers currently skipped. */
  function SkippedGdalDrivers(c: Config): seq<string> { c.gdalSkipList }

  /** `maxThreads()`: the stored thread setting. */
  function MaxThreads(c: Config): int { c.maxThreads }

  /** The number of threads the stored setting stands for on the host: -1 means every core. */
  function ThreadsInUse(c: Config, h: Host): (r: int)
    ensures 1 <= h.cores && ThreadCount.InDomain(MaxThreads(c), h.cores) ==> 1 <= r <= h.cores
    ensures MaxThreads(c) == ThreadCount.AllCores ==> r == h.cores
  {
    ThreadCount.Effective(c.maxThreads, h.cores)
  }

  /** `activeThemePath()`: it differs from the default theme's directory unless the default is active. */
  function ActiveThemePath(c: Config): (r: string)
    ensures r == DefaultThemePath(c) <==> c.themeName == Theme.DefaultTheme
  {
    Theme.ThemePathInjective(c.pkgDataPath);
    Theme.ThemePath(c.pkgDataPath, c.themeName)
  }

  /** `defaultThemePath()`: the directory of the default theme, whichever theme is active. */
  function DefaultThemePath(c: Config): (r: string)
    ensures forall name :: r == Theme.ThemePath(c.pkgDataPath, name) <==> name == Theme.DefaultTheme
  {
    Theme.ThemePathInjective(c.pkgDataPath);
    Theme.ThemePath(c.pkgDataPath, Theme.DefaultTheme)
  }

  /** In a valid state the active theme's directory exists unless it is the default. */
  lemma ActiveThemeDirectoryExists(c: Config, h: Host)
    requires Valid(c, h)
    ensures ActiveThemePath(c) in h.existing || ActiveThemePath(c) == DefaultThemePath(c)
  {
  }

  /** `iconPath(file)`: the active theme's file if it exists, otherwise the default theme's. */
  function IconPath(c: Config, h: Host, file: string): (r: string)
    ensures r == ActiveThemePath(c) + file || r == DefaultThemePath(c) + file
    ensures ActiveThemePath(c) + file in h.existing ==> r == ActiveThemePath(c) + file
    ensures ActiveThemePath(c) + file !in h.existing ==> r == DefaultThemePath(c) + file
  {
    Theme.IconPath(c.pkgDataPath, c.themeName, h.existing, file)
  }

  // Setters

  /** `setThemeName(name)`: only the theme name changes, and only to a name that resolves. */
  function SetThemeName(c: Config, h: Host, name: string): (r: Config)
    ensures r.pkgDataPath == c.pkgDataPath && r.gdalSkipList == c.gdalSkipList && r.maxThreads == c.maxThreads
    ensures ThemeName(r) == name <==> Theme.ThemePath(c.pkgDataPath, name) in h.existing || name == Theme.DefaultTheme
    ensures ThemeName(r) != name ==> ThemeName(r) == Theme.DefaultTheme
    ensures Theme.Resolves(r.pkgDataPath, h.existing, ThemeName(r))
    ensures Valid(c, h) ==> Valid(r, h)
  {
    c.(themeName := Theme.SelectTheme(c.pkgDataPath, h.existing, name))
  }

  /** `skipGdalDriver(driver)`: the driver is listed afterwards and no other entry changes. */
  function SkipGdalDriver(c: Config, driver: string): (r: Config)
    ensures r.pkgDataPath == c.pkgDataPath && r.themeName == c.themeName && r.maxThreads == c.maxThreads
    ensures driver in SkippedGdalDrivers(r)
    ensures forall x :: x != driver ==> (x in SkippedGdalDrivers(r) <==> x in SkippedGdalDrivers(c))
    ensures GdalSkipList.Distinct(SkippedGdalDrivers(c)) ==> GdalSkipList.Distinct(SkippedGdalDrivers(r))
    ensures forall h :: Valid(c, h) ==> Valid(r, h)
  {
    c.(gdalSkipList := GdalSkipList.Skip(c.gdalSkipList, driver))
  }

  /** `restoreGdalDriver(driver)`: the driver is not listed afterwards and no other entry changes. */
  function RestoreGdalDriver(c: Config, driver: string): (r: Config)
    ensures r.pkgDataPath == c.pkgDataPath && r.themeName == c.themeName && r.maxThreads == c.maxThreads
    ensures driver !in SkippedGdalDrivers(r)
    ensures forall x :: x != driver ==> (x in SkippedGdalDrivers(r) <==> x in SkippedGdalDrivers(c))
    ensures GdalSkipList.Distinct(SkippedGdalDrivers(c)) ==> GdalSkipList.Distinct(SkippedGdalDrivers(r))
    ensures forall h :: Valid(c, h) ==> Valid(r, h)
  {
    c.(gdalSkipList := GdalSkipList.Restore(c.gdalSkipList, driver))
  }

  /** `setMaxThreads(n)`: only the thread setting changes, and it stays in its domain. */
  function SetMaxThreads(c: Config, h: Host, n: int): (r: Config)
    ensures r.pkgDataPath == c.pkgDataPath && r.themeName == c.themeName && r.gdalSkipList == c.gdalSkipList
    ensures ThreadCount.InDomain(MaxThreads(r), h.cores)
    ensures MaxThreads(r) == n <==> ThreadCount.InDomain(n, h.cores)
    ensures Valid(c, h) ==> Valid(r, h)
  {
    c.(maxThreads := ThreadCount.Normalize(n, h.cores))
  }

  // Sequences of calls

  /** One call to a setter of the modelled state. */
  datatype Call =
    | SetTheme(name: string)
    | Skip(driver: string)
    | RestoreDriver(driver: string)
    | SetThreads(n: int)

  function Apply(c: Config, h: Host, call: Call): Config
  {
    match call
    case SetTheme(name) => SetThemeName(c, h, name)
    case Skip(driver) => SkipGdalDriver(c, driver)
    case RestoreDriver(driver) => RestoreGdalDriver(c, driver)
    case SetThreads(n) => SetMaxThreads(c, h, n)
  }

  /** The state after the calls in order. */
  function Run(c: Config, h: Host, calls: seq<Call>): Config
    decreases |calls|
  {
    if calls == [] then c else Run(Apply(c, h, calls[0]), h, calls[1..])
  }

  /**
   * Every sequence of calls keeps a valid state valid, and keeps each of the
   * three parts of validity on its own: a resolving theme, a duplicate-free
   * skip list, an in-domain thread setting.
   */
  lemma {:induction false} RunPreservesValid(c: Config, h: Host, calls: seq<Call>)
    ensures Valid(c, h) ==> Valid(Run(c, h, calls), h)
    ensures Theme.Resolves(c.pkgDataPath, h.existing, c.themeName)
            ==> Theme.Resolves(c.pkgDataPath, h.existing, ThemeName(Run(c, h, calls)))
    ensures GdalSkipList.Distinct(c.gdalSkipList) ==> GdalSkipList.Distinct(SkippedGdalDrivers(Run(c, h, calls)))
    ensures ThreadCount.InDomain(c.maxThreads, h.cores) ==> ThreadCount.InDomain(MaxThreads(Run(c, h, calls)), h.cores)
    decreases |calls|
  {
    if calls != [] {
      RunPreservesValid(Apply(c, h, calls[0]), h, calls[1..]);
    }
  }

  /**
   * Whatever calls have been made since the start, `maxThreads()` is -1 or
   * between 1 and the core count and the theme name resolves; the skip list
   * holds no duplicate provided the start-up list held none.
   */
  lemma ReachableStatesValid(pkgDataPath: string, startSkipList: seq<string>, h: Host, calls: seq<Call>)
    ensures ThreadCount.InDomain(MaxThreads(Run(Initial(pkgDataPath, startSkipList), h, calls)), h.cores)
    ensures Theme.Resolves(pkgDataPath, h.existing, ThemeName(Run(Initial(pkgDataPath, startSkipList), h, calls)))
    ensures GdalSkipList.Distinct(startSkipList)
            ==> GdalSkipList.Distinct(SkippedGdalDrivers(Run(Initial(pkgDataPath, startSkipList), h, calls)))
  {
    var c0 := Initial(pkgDataPath, startSkipList);
    RunPreservesValid(c0, h, calls);
    RunKeepsPkgDataPath(c0, h, calls);
  }

  /** None of the modelled calls moves the package data path. */
  lemma {:induction false} RunKeepsPkgDataPath(c: Config, h: Host, calls: seq<Call>)
    ensures Run(c, h, calls).pkgDataPath == c.pkgDataPath
    decreases |calls|
  {
    if calls != [] {
      RunKeepsPkgDataPath(Apply(c, h, calls[0]), h, calls[1..]);
    }
  }

  /**
   * With the package data path "/opt/app/share" and no "classic" theme
   * directory, asking for "classic" leaves the default theme active.
   */
  lemma MissingClassicThemeScenario(h: Host)
    requires "/opt/app/share/themes/classic/" !in h.existing
    ensures var c := SetThemeName(Initial("/opt/app/share", []), h, "classic");
            ThemeName(c) == "default" && ActiveThemePath(c) == "/opt/app/share/themes/default/"
  {
    assert Theme.ThemePath("/opt/app/share", "classic") == "/opt/app/share/themes/classic/";
    assert Theme.ThemePath("/opt/app/share", "default") == "/opt/app/share/themes/default/";
  }
}

=== FILE: endian.dfy ===
/**
 * Byte-order utilities of the application object: the two byte orders named
 * by `endian_t` and the in-place byte swap `endian_swap`, which reverses the
 * bytes of a fixed-size value.  A value of `sizeof(T) == n` bytes is modelled
 * as its object representation, a sequence (or array) of `n` bytes.
 */
module Endian {

  /** The byte orders of `endian_t`: XDR is network (big-endian) order, NDR little-endian. */
  datatype ByteOrder = XDR | NDR

  /** The numeric value the enumeration gives each byte order. */
  function Code(order: ByteOrder): int
  {
    match order
    case XDR => 0
    case NDR => 1
  }

  /** Reference definition of byte reversal, independent of the swapping loop. */
  function Reverse(s: seq<bv8>): (r: seq<bv8>)
    ensures |r| == |s|
    ensures forall i :: 0 <= i < |s| ==> r[i] == s[|s| - 1 - i]
  {
    if s == [] then [] else [s[|s| - 1]] + Reverse(s[..|s| - 1])
  }

  /** Unsigned value of a byte sequence read with the most significant byte first. */
  function BigEndianValue(s: seq<bv8>): nat
  {
    if s == [] then 0 else BigEndianValue(s[..|s| - 1]) * 256 + s[|s| - 1] as nat
  }

  /** Unsigned value of a byte sequence read with the least significant byte first. */
  function LittleEndianValue(s: seq<bv8>): nat
  {
    if s == [] then 0 else s[0] as nat + 256 * LittleEndianValue(s[1..])
  }

  /** The unsigned number that the bytes `s` stand for in the given byte order. */
  function Decode(order: ByteOrder, s: seq<bv8>): nat
  {
    match order
    case XDR => BigEndianValue(s)
    case NDR => LittleEndianValue(s)
  }

  /**
   * `endian_swap` on a value held by reference: swaps byte `i` with byte
   * `n - 1 - i` for every `i < n / 2`, in place.
   */
  method EndianSwapInPlace(data: array<bv8>)
    modifies data
    ensures data[..] == Reverse(old(data[..]))
  {
    var n := data.Length;
    var m := n / 2;
    var i := 0;
    while i < m
      invariant 0 <= i <= m
      invariant forall k :: 0 <= k < i ==> data[k] == old(data[n - 1 - k]) && data[n - 1 - k] == old(data[k])
      invariant forall k :: i <= k < n - i ==> data[k] == old(data[k])
    {
      data[i], data[n - 1 - i] := data[n - 1 - i], data[i];
      i := i + 1;
    }
  }

  /** The same swapping loop over the bytes of a value, returning the swapped bytes. */
  method EndianSwap(value: seq<bv8>) returns (swapped: seq<bv8>)
    ensures swapped == Reverse(value)
  {
    var data := value;
    var n := |data|;
    var m := n / 2;
    var i := 0;
    while i < m
      invariant 0 <= i <= m
      invariant |data| == n
      invariant forall k :: 0 <= k < i ==> data[k] == value[n - 1 - k] && data[n - 1 - k] == value[k]
      invariant forall k :: i <= k < n - i ==> data[k] == value[k]
    {
      data := data[i := data[n - 1 - i]][n - 1 - i := data[i]];
      i := i + 1;
    }
    swapped := data;
  }

  /** Swapping twice restores the original bytes. */
  lemma SwapTwiceIsIdentity(s: seq<bv8>)
    ensures Reverse(Reverse(s)) == s
  {
  }

  /**
   * The loop's edge cases: a value of at most one byte is unchanged, and the
   * middle byte of an odd-sized value stays where it is.
   */
  lemma SwapEdgeCases(s: seq<bv8>)
    ensures |s| <= 1 ==> Reverse(s) == s
    ensures |s| % 2 == 1 ==> Reverse(s)[|s| / 2] == s[|s| / 2]
  {
  }

  /** A swap leaves a value unchanged exactly when its bytes read the same both ways. */
  lemma SwapFixesOnlyPalindromes(s: seq<bv8>)
    ensures Reverse(s) == s <==> forall i :: 0 <= i < |s| ==> s[i] == s[|s| - 1 - i]
  {
  }

  /** Dropping the first byte of a reversal is reversing all but the last byte. */
  lemma ReverseTail(s: seq<bv8>)
    requires |s| > 0
    ensures Reverse(s)[1..] == Reverse(s[..|s| - 1])
  {
  }

  /**
   * Swapping the bytes converts between the two byte orders: the bytes of a
   * value read in one order, once swapped, read as the same number in the other.
   */
  lemma {:induction false} SwapConvertsByteOrder(s: seq<bv8>)
    ensures Decode(NDR, Reverse(s)) == Decode(XDR, s)
    ensures Decode(XDR, Reverse(s)) == Decode(NDR, s)
  {
    LittleOfReverse(s);
    LittleOfReverse(Reverse(s));
    SwapTwiceIsIdentity(s);
  }

  lemma {:induction false} LittleOfReverse(s: seq<bv8>)
    ensures LittleEndianValue(Reverse(s)) == BigEndianValue(s)
    decreases |s|
  {
    if s != [] {
      var r := Reverse(s);
      ReverseTail(s);
      LittleOfReverse(s[..|s| - 1]);
      assert r[0] == s[|s| - 1];
      assert LittleEndianValue(r) == r[0] as nat + 256 * LittleEndianValue(r[1..]);
    }
  }
}

=== FILE: gdal_skip_list.dfy ===
/**
 * The list of GDAL drivers to skip.  Driver names are short, case-sensitive
 * tokens such as "GTIFF".  Skipping and restoring never add a name twice, so a
 * list that starts without duplicates keeps none.
 */
module GdalSkipList {

  /** No driver name appears twice. */
  predicate Distinct(drivers: seq<string>)
  {
    forall i, j :: 0 <= i < j < |drivers| ==> drivers[i] != drivers[j]
  }

  /**
   * `skipGdalDriver`: the driver is on the list afterwards; it is appended
   * only when absent, so the names already there keep their order and no
   * name is doubled.
   */
  function Skip(drivers: seq<string>, driver: string): (r: seq<string>)
    ensures driver in r
    ensures forall x :: x != driver ==> (x in r <==> x in drivers)
    ensures |drivers| <= |r| <= |drivers| + 1 && r[..|drivers|] == drivers
    ensures driver in drivers ==> r == drivers
    ensures Distinct(drivers) ==> Distinct(r)
  {
    if driver in drivers then drivers else drivers + [driver]
  }

  /**
   * `restoreGdalDriver`: the driver is no longer on the list; every other
   * name stays listed, and a driver that was not listed leaves the list as
   * it was.
   */
  function Restore(drivers: seq<string>, driver: string): (r: seq<string>)
    ensures driver !in r
    ensures forall x :: x != driver ==> (x in r <==> x in drivers)
    ensures driver !in drivers ==> r == drivers
    ensures Distinct(drivers) ==> Distinct(r)
  {
    if drivers == [] then []
    else if drivers[0] == driver then Restore(drivers[1..], driver)
    else
      DistinctCons(drivers[0], drivers[1..]);
      DistinctCons(drivers[0], Restore(drivers[1..], driver));
      [drivers[0]] + Restore(drivers[1..], driver)
  }

  /** A list is duplicate-free exactly when its head is not in its duplicate-free tail. */
  lemma DistinctCons(head: string, tail: seq<string>)
    ensures Distinct([head] + tail) <==> head !in tail && Distinct(tail)
  {
    var s := [head] + tail;
    if Distinct(s) {
      forall i, j | 0 <= i < j < |tail|
        ensures tail[i] != tail[j]
      {
        assert s[i + 1] == tail[i] && s[j + 1] == tail[j];
      }
      forall k | 0 <= k < |tail|
        ensures tail[k] != head
      {
        assert s[0] == head && s[k + 1] == tail[k];
        assert s[0] != s[k + 1];
      }
    }
  }

  /** Restoring distributes over a split of the list. */
  lemma {:induction false} RestoreAppend(a: seq<string>, b: seq<string>, driver: string)
    ensures Restore(a + b, driver) == Restore(a, driver) + Restore(b, driver)
    decreases |a|
  {
    if a != [] {
      assert (a + b)[1..] == a[1..] + b;
      RestoreAppend(a[1..], b, driver);
    } else {
      assert a + b == b;
    }
  }

  /** Skipping a driver twice is the same as skipping it once. */
  lemma SkipIdempotent(drivers: seq<string>, driver: string)
    ensures Skip(Skip(drivers, driver), driver) == Skip(drivers, driver)
  {
  }

  /** Restoring a driver twice is the same as restoring it once. */
  lemma RestoreIdempotent(drivers: seq<string>, driver: string)
    ensures Restore(Restore(drivers, driver), driver) == Restore(drivers, driver)
  {
  }

  /** Restoring a driver that was just skipped gives back the list it was skipped from. */
  lemma {:induction false} RestoreUndoesSkip(drivers: seq<string>, driver: string)
    requires driver !in drivers
    ensures Restore(Skip(drivers, driver), driver) == drivers
  {
    RestoreAppend(drivers, [driver], driver);
    assert Restore([driver], driver) == Restore([], driver) == [];
  }

  /** Skipping "GTIFF" twice lists it once; restoring it twice empties the list. */
  lemma GtiffScenario()
    ensures Skip(Skip([], "GTIFF"), "GTIFF") == ["GTIFF"]
    ensures Restore(Restore(["GTIFF"], "GTIFF"), "GTIFF") == []
  {
  }
}

=== FILE: theme.dfy ===
/**
 * Theme resolution of the application object: the directory of a named
 * theme under the package data path, the choice of active theme with
 * fallback to the default theme, and the two-level icon lookup.
 *
 * The filesystem is abstracted as `existing`, the set of paths that exist.
 */
module Theme {

  /** Name of the theme every lookup falls back to. */
  const DefaultTheme: string := "default"

  /** Sub-directory of the package data path that holds the themes. */
  const ThemesDir: string := "/themes/"

  /**
   * Directory of theme `name`: pkgDataPath + "/themes/" + name + "/".  The
   * name can be read back from between the themes prefix and the final "/".
   */
  function ThemePath(pkgDataPath: string, name: string): (r: string)
    ensures |r| == |pkgDataPath| + |ThemesDir| + |name| + 1
    ensures r[..|pkgDataPath| + |ThemesDir|] == pkgDataPath + ThemesDir
    ensures r[|pkgDataPath| + |ThemesDir| .. |r| - 1] == name
    ensures r[|r| - 1] == '/'
  {
    pkgDataPath + ThemesDir + name + "/"
  }

  /** A theme name the state may hold: its directory exists, or it is the default. */
  predicate Resolves(pkgDataPath: string, existing: set<string>, name: string)
  {
    name == DefaultTheme || ThemePath(pkgDataPath, name) in existing
  }

  /**
   * Different theme names never give the same directory path, and neither do
   * their files.  Names are compared as strings; like the header, the model
   * expects single-word names, so "x/../default" is a different path string.
   */
  lemma ThemeFileInjective(pkgDataPath: string, a: string, b: string, file: string)
    ensures ThemePath(pkgDataPath, a) + file == ThemePath(pkgDataPath, b) + file <==> a == b
  {
    var pa := ThemePath(pkgDataPath, a) + file;
    var pb := ThemePath(pkgDataPath, b) + file;
    if pa == pb {
      var start := |pkgDataPath| + |ThemesDir|;
      assert |a| == |b|;
      assert pa[start .. start + |a|] == a;
      assert pb[start .. start + |b|] == b;
    }
  }

  /** Under one package data path, every theme name has its own directory path string. */
  lemma ThemePathInjective(pkgDataPath: string)
    ensures forall a, b :: ThemePath(pkgDataPath, a) == ThemePath(pkgDataPath, b) <==> a == b
  {
    forall a, b | ThemePath(pkgDataPath, a) == ThemePath(pkgDataPath, b)
      ensures a == b
    {
      ThemeFileInjective(pkgDataPath, a, b, "");
      assert ThemePath(pkgDataPath, a) + "" == ThemePath(pkgDataPath, a);
      assert ThemePath(pkgDataPath, b) + "" == ThemePath(pkgDataPath, b);
    }
  }

  /**
   * The theme `setThemeName(requested)` leaves active: the requested name when
   * its directory exists, otherwise the default theme.
   */
  function SelectTheme(pkgDataPath: string, existing: set<string>, requested: string): (r: string)
    ensures Resolves(pkgDataPath, existing, r)
    ensures r == requested || r == DefaultTheme
    ensures r == requested <==> Resolves(pkgDataPath, existing, requested)
  {
    if ThemePath(pkgDataPath, requested) in existing then requested else DefaultTheme
  }

  /** Asking again for the theme a request ended on changes nothing. */
  lemma SelectThemeIdempotent(pkgDataPath: string, existing: set<string>, requested: string)
    ensures var r := SelectTheme(pkgDataPath, existing, requested);
            SelectTheme(pkgDataPath, existing, r) == r
  {
  }

  /**
   * `iconPath(file)`: the file under the active theme when it exists there,
   * otherwise the same file under the default theme, whether or not that
   * one exists.
   */
  function IconPath(pkgDataPath: string, active: string, existing: set<string>, file: string): (r: string)
    ensures r == ThemePath(pkgDataPath, active) + file || r == ThemePath(pkgDataPath, DefaultTheme) + file
    ensures ThemePath(pkgDataPath, active) + file in existing ==> r == ThemePath(pkgDataPath, active) + file
    ensures ThemePath(pkgDataPath, active) + file !in existing ==> r == ThemePath(pkgDataPath, DefaultTheme) + file
    ensures ThemePath(pkgDataPath, active) + file in existing || ThemePath(pkgDataPath, DefaultTheme) + file in existing
            ==> r in existing
  {
    var activeFile := ThemePath(pkgDataPath, active) + file;
    if activeFile in existing then activeFile else ThemePath(pkgDataPath, DefaultTheme) + file
  }

  /**
   * The lookup answers with the active theme's file exactly when that file
   * exists or the active theme is the default; any other answer is the
   * default theme's file.
   */
  lemma IconPathActiveIff(pkgDataPath: string, active: string, existing: set<string>, file: string)
    ensures IconPath(pkgDataPath, active, existing, file) == ThemePath(pkgDataPath, active) + file
            <==> ThemePath(pkgDataPath, active) + file in existing || active == DefaultTheme
  {
    ThemeFileInjective(pkgDataPath, active, DefaultTheme, file);
  }
}

=== FILE: thread_count.dfy ===
/**
 * The maximum concurrent thread count: -1 ("use all available cores") or a
 * number between 1 and the host's core count.
 */
module ThreadCount {

  /** Value meaning "use all available cores". */
  const AllCores: int := -1

  /** The values the setting may hold on a host with `cores` cores. */
  predicate InDomain(n: int, cores: int)
  {
    n == AllCores || 1 <= n <= cores
  }

  /**
   * The value `setMaxThreads(requested)` stores: a request inside the domain
   * is kept as it is, any other request becomes "use all available cores".
   */
  function Normalize(requested: int, cores: int): (r: int)
    ensures InDomain(r, cores)
    ensures r == requested <==> InDomain(requested, cores)
    ensures r != requested ==> r == AllCores
  {
    if requested < 1 || requested > cores then AllCores else requested
  }

  /** Storing a stored value again changes nothing. */
  lemma NormalizeIdempotent(requested: int, cores: int)
    ensures Normalize(Normalize(requested, cores), cores) == Normalize(requested, cores)
  {
  }

  /** The number of threads a stored setting stands for: -1 stands for every core. */
  function Effective(n: int, cores: int): (r: int)
    ensures 1 <= cores && InDomain(n, cores) ==> 1 <= r <= cores
    ensures n == AllCores ==> r == cores
    ensures n != AllCores ==> r == n
  {
    if n == AllCores then cores else n
  }
}
